=== FILE: README.md ===
# EventBus, modelled in Dafny

This project models the core of the `EventBus` class of the Java library
`me.bush.eventbus`. Subscribers register listener methods, and the bus keeps
one handler list per exact event class. Each list is sorted by priority.
`post` walks the list of the event's exact class and applies the
cancellation-skip rule.

The model is functional. A bus is an immutable value
(`Bus.EventBus`). It holds:

- the subscriber set;
- the handler map, from event class to a sequence of handlers;
- the configured handler kind;
- the sequence of entries written to the error logger.

`subscribe`, `unsubscribe` and `setHandlerType`, and the private
`addHandlers`, are functions from the old bus to the new one. `post` reads
the bus and returns what it delivered; the listener count of `getInfo` is a
method that reads the bus. The private `createHandler` is a function of the
configured kind, the listener and its subscriber.

The model does not look inside the Java runtime. Instead it takes a
`Model.Runtime` value with two parts:

- `listeners(s)` is what `getMethods` plus the annotation filter report for
  a subscriber, in order;
- `bindFails(kind, l, s)` says whether constructing a handler of the
  configured kind throws. It is consulted only for the two specialised
  kinds: the reflective handler, which is also the fallback, is taken never
  to throw (see "## Left out").

A listener body is a parameter `body(h, e)`. It says whether the listener
sets the event's cancelled flag. A Java `null` argument to `subscribe`, `unsubscribe` or `post` is
`Option.None`.

The files:

- `model.dfy`: subscribers, events, listener descriptors, handlers, log
  entries and the runtime oracle.
- `sequences.dfy`: two facts about sequence concatenation.
- `handler_list.dfy`: one handler list. It covers add-then-sort (an insertion
  sort, matching the stable `List.sort`), the reference definition of a
  stable sort, and `removeIf` by owner.
- `dispatch.dfy`: the `forEach` loop of `post` and the cancellation-skip
  rule.
- `registry.dfy`: the handler map invariant, `createHandler`, and
  `addHandlers` with what it registers and what it logs.
- `event_bus.dfy`: the bus and its public operations.
- `bus_properties.dfy`: properties that relate several operations.
- `info.dfy`: the listener count of `getInfo`.
- `scenario.dfy`: a concrete run with two subscribers of different
  priority.

Behaviour of the code worth knowing when reading the model:

- When no handler could be built with the configured kind, the code logs
  the reflection-exception helper's report and then a separate "Defaulting
  to ReflectHandler" line (`EventBus.java` lines 112-113).
- `setHandlerType` rebuilds the map by running `addHandlers` again for every
  subscriber. So it logs again every subscriber's malformed-listener errors,
  and a fallback notice for each listener whose handler of the new kind
  cannot be built.
- The no-argument constructor picks `LambdaHandler`.

## Model

| member | source | states |
|---|---|---|
| Bus.NewBus | src/main/java/me/bush/eventbus/bus/EventBus.java:40-44 | a new bus has no subscribers and no handler entries, has the given handler kind, and satisfies the map invariant |
| Bus.Subscribe | src/main/java/me/bush/eventbus/bus/EventBus.java:46-50 | for `null` or a current member the bus is returned unchanged; otherwise the subscriber joins the set, the handler kind is kept, earlier errors stay as a prefix of the log, and the map invariant is preserved |
| BusProperties.SubscribeRegistersExactly | src/main/java/me/bush/eventbus/bus/EventBus.java:46-50 | after subscribing a new subscriber, a handler is in the list of class `k` exactly when it was there before, or when it is the handler built for one of the subscriber's listeners of matching static-ness and correct shape whose parameter class is `k` |
| Bus.AddHandlers | src/main/java/me/bush/eventbus/bus/EventBus.java:91-105 | the subscriber set and the handler kind are unchanged, the log only grows, and the map invariant is preserved for a member subscriber |
| Registry.Consider | src/main/java/me/bush/eventbus/bus/EventBus.java:92-95 | a listener whose static-ness does not match the subscriber kind is filtered out silently, leaving map and log as they were; no entry is lost and sorted lists stay sorted |
| Registry.RegisterOne | src/main/java/me/bush/eventbus/bus/EventBus.java:96-104 | a malformed listener leaves the map unchanged and logs exactly one malformed-listener entry; for a well-formed one the list of its parameter class (created when absent) becomes the old list plus the handler `createHandler` built, as a multiset, no other entry changes, exactly what `createHandler` logged is logged, and every list stays sorted |
| Registry.Register | src/main/java/me/bush/eventbus/bus/EventBus.java:93-104 | the stream over a subscriber's annotated methods loses no map entry and keeps every sorted list sorted; what it adds and logs is stated by the rows for `RegisterContents` and `RegisterLogs` |
| Registry.RegisterLogs | src/main/java/me/bush/eventbus/bus/EventBus.java:96-99 | over a whole `addHandlers` run, the malformed-listener entries name exactly the matching malformed listeners, once each, in discovery order; the fallback entries name exactly the listeners whose configured handler could not be built |
| BusProperties.SubscribeLogs | src/main/java/me/bush/eventbus/bus/EventBus.java:97-98 | the errors a new subscription appends contain exactly one malformed-listener entry per malformed listener and one fallback entry per failed construction, in order |
| Registry.RegisterContents | src/main/java/me/bush/eventbus/bus/EventBus.java:101-102 | after an `addHandlers` run, a list holds exactly its former handlers plus the handlers built for the accepted listeners of that parameter class; later listeners are still registered after a malformed one |
| Registry.RegisterWellFormed | src/main/java/me/bush/eventbus/bus/EventBus.java:101-103 | `addHandlers` for a member keeps the map invariant: no empty entry, every list sorted, every handler well-formed, of matching static-ness, owned by a member and filed under its own parameter class |
| Registry.AddKeepsWellFormed | src/main/java/me/bush/eventbus/bus/EventBus.java:101-103 | adding a registered handler to the list of its parameter class (created if absent) keeps the map invariant |
| Registry.RegisterWithout | src/main/java/me/bush/eventbus/bus/EventBus.java:101-103 | removing a subscriber's handlers from the lists an `addHandlers` run for that subscriber produced gives the lists it started from, with that subscriber's handlers removed |
| Registry.CreateHandler | src/main/java/me/bush/eventbus/bus/EventBus.java:107-116 | the handler always binds the given listener to the given subscriber; without a construction failure it has the configured kind and nothing is logged; with the reflective kind configured nothing can fail; a failure of a specialised kind falls back to the reflective kind and logs a nonempty report naming that listener only |
| Registry.FallbackOfReflect | src/main/java/me/bush/eventbus/bus/EventBus.java:107-116 | with the reflective kind configured, no listener of a subscriber yields a fallback notice |
| BusProperties.ReflectNeverFallsBack | src/main/java/me/bush/eventbus/bus/EventBus.java:107-116 | on a bus configured with the reflective kind, subscribing logs no fallback notice |
| HandlerList.StableSort | src/main/java/me/bush/eventbus/bus/EventBus.java:103 | the sort yields a list sorted by ascending priority that is a permutation of its input; its stability is the row for `StableSortIsStable` |
| HandlerList.AddSorted | src/main/java/me/bush/eventbus/bus/EventBus.java:102-103 | add-then-sort yields a list sorted by ascending priority holding the old handlers and the new one, as a multiset |
| HandlerList.AddSortedIsStable | src/main/java/me/bush/eventbus/bus/EventBus.java:102-103 | add-then-sort meets the reference definition of a stable sort of the old list followed by the new handler; among handlers of the new handler's priority, it comes after all the old ones |
| HandlerList.StableSortIsStable | src/main/java/me/bush/eventbus/bus/EventBus.java:103 | the sort yields a sorted list in which the handlers of each priority appear in their original order |
| HandlerList.InsertWithPriority | src/main/java/me/bush/eventbus/bus/EventBus.java:103 | inserting into a sorted list changes the handlers of each priority exactly as appending at the end would |
| HandlerList.InsertSorted | src/main/java/me/bush/eventbus/bus/EventBus.java:103 | inserting a handler into a sorted list keeps it sorted |
| HandlerList.StableSortSorted | src/main/java/me/bush/eventbus/bus/EventBus.java:103 | sorting a list that is already sorted leaves it unchanged |
| HandlerList.AddSortedIsInsert | src/main/java/me/bush/eventbus/bus/EventBus.java:102-103 | on a sorted list, add-then-sort equals a single insertion after the handlers of equal or lower priority |
| HandlerList.Without | src/main/java/me/bush/eventbus/bus/EventBus.java:67 | removing a subscriber's handlers from one list gives a list no longer than the old one in which no handler is owned by that subscriber |
| HandlerList.WithoutKeepsOthers | src/main/java/me/bush/eventbus/bus/EventBus.java:67 | `removeIf` by owner keeps exactly the handlers of other subscribers and keeps a sorted list sorted |
| HandlerList.WithoutAddSorted | src/main/java/me/bush/eventbus/bus/EventBus.java:67 | on a sorted list, removing a subscriber's handlers undoes adding one of its handlers |
| HandlerList.WithoutNone | src/main/java/me/bush/eventbus/bus/EventBus.java:67 | removing the handlers of a subscriber that owns none leaves the list unchanged |
| Bus.RemoveOwned | src/main/java/me/bush/eventbus/bus/EventBus.java:67 | every entry is kept, and no list holds a handler of the removed subscriber any more |
| Bus.Prune | src/main/java/me/bush/eventbus/bus/EventBus.java:68 | no entry of the result is empty, every nonempty entry is kept with its list unchanged, and no entry is added |
| Bus.Unsubscribe | src/main/java/me/bush/eventbus/bus/EventBus.java:64-69 | for `null` or a non-member the bus is returned unchanged; otherwise the subscriber leaves the set, each remaining entry is the old list with its handlers removed, an entry survives exactly when that list is nonempty, no entry is empty, kind and log are unchanged, and the map invariant is preserved |
| BusProperties.UnsubscribeRemovesAll | src/main/java/me/bush/eventbus/bus/EventBus.java:67 | after `unsubscribe`, every handler left in any list was there before and is not owned by the removed subscriber |
| BusProperties.PruneRestores | src/main/java/me/bush/eventbus/bus/EventBus.java:67-68 | removing a subscriber's handlers and then pruning empty entries from a map that only gained that subscriber's handlers gives the original map back |
| BusProperties.UnsubscribeUndoesSubscribe | src/main/java/me/bush/eventbus/bus/EventBus.java:64-69 | on a valid bus, unsubscribing a subscriber right after subscribing it restores the subscriber set and the handler map exactly |
| Bus.Post | src/main/java/me/bush/eventbus/bus/EventBus.java:52-62 | `post(null)` and an event with no entry for its exact class return `false` with no invocation; an event that arrives cancelled and has an entry reports cancelled; on a valid bus the invoked handlers are in priority order and all declare exactly the event's class; which handlers are invoked and the returned flag are the row for `BusProperties.PostInvokes` |
| BusProperties.PostInvokes | src/main/java/me/bush/eventbus/bus/EventBus.java:52-62 | for an event whose exact class has an entry, a handler is invoked exactly when it is in that list at a position where the event is not yet cancelled or the handler receives cancelled events, and `post` returns the flag the pass over that list left |
| Dispatching.Dispatch | src/main/java/me/bush/eventbus/bus/EventBus.java:56-61 | the pass visits every handler of the list; an event that arrives cancelled stays cancelled; when it ends not cancelled, every handler was invoked |
| Dispatching.DispatchSplit | src/main/java/me/bush/eventbus/bus/EventBus.java:56-60 | a pass over two concatenated lists is a pass over the first followed by a pass over the second, starting from the flag the first left |
| Dispatching.FiredIff | src/main/java/me/bush/eventbus/bus/EventBus.java:57-58 | the i-th handler is invoked exactly when the event is not cancelled at that point or the handler receives cancelled events |
| Dispatching.CancelledBeforeMonotone | src/main/java/me/bush/eventbus/bus/EventBus.java:56-61 | once the flag is set at some position it is set at every later position and at the end |
| Dispatching.CancellationSkips | src/main/java/me/bush/eventbus/bus/EventBus.java:56-61 | after an invoked handler cancels the event, no later handler that declines cancelled events is invoked, and `post` returns `true` |
| Dispatching.CancelledIff | src/main/java/me/bush/eventbus/bus/EventBus.java:56-61 | the returned flag is set exactly when the event arrived cancelled or some invoked handler cancelled it |
| Dispatching.Invoked | src/main/java/me/bush/eventbus/bus/EventBus.java:56-60 | the invoked handlers are drawn from the list, and in priority order when the list is; the converse is the row for `Dispatching.InvokedIff` |
| Dispatching.InvokedIff | src/main/java/me/bush/eventbus/bus/EventBus.java:56-60 | a handler is among the invoked ones exactly when it sits at a position of the list whose handler fired |
| Scenario.LowerPriorityRunsFirst | src/main/java/me/bush/eventbus/bus/EventBus.java:52-62 | with A listening at priority 10 and B at priority 5 for the same class, and no listener cancelling, `post` invokes B's handler then A's and returns `false` |
| Bus.Rebuild | src/main/java/me/bush/eventbus/bus/EventBus.java:88 | re-adding handlers for a sequence of members leaves the subscriber set and kind alone, only grows the log, and keeps the map invariant |
| Bus.SetHandlerType | src/main/java/me/bush/eventbus/bus/EventBus.java:84-89 | the current kind changes nothing; otherwise the subscriber set is unchanged, the new kind is recorded, the log only grows, and the rebuilt map satisfies the invariant |
| BusProperties.SubscribeAllIsRebuild | src/main/java/me/bush/eventbus/bus/EventBus.java:87-88 | re-adding handlers for distinct subscribers in some order gives the same map as subscribing them one by one in that order |
| BusProperties.SetHandlerTypeRebuilds | src/main/java/me/bush/eventbus/bus/EventBus.java:84-89 | switching to a new kind yields the subscriber set and handler map of a fresh bus of that kind that subscribed the same subscribers in the set's iteration order |
| Info.ListenerCount | src/main/java/me/bush/eventbus/bus/EventBus.java:76 | the loop over the map's entries returns the sum of all list lengths |
| Info.TotalCountRemove | src/main/java/me/bush/eventbus/bus/EventBus.java:76 | the sum of list lengths does not depend on the order in which entries are visited |
| Info.RegisterCount | src/main/java/me/bush/eventbus/bus/EventBus.java:101-102 | an `addHandlers` run raises the total handler count by exactly the number of accepted listeners |
| Info.SubscribeCount | src/main/java/me/bush/eventbus/bus/EventBus.java:46-50 | subscribing a new subscriber raises the listener count by the number of its listeners of matching static-ness and correct shape |

## Left out

- Reflection: `getMethods`, the annotation check and `Modifier.isStatic` are
  the `Runtime.listeners` parameter. Its order is the `getMethods` order.
  The static-ness filter and the shape check are modelled.
- Handler construction: `LambdaHandler`, `ASMHandler` and `ReflectHandler`
  become the tag `HandlerKind`. Whether construction of a `LambdaHandler`
  or an `ASMHandler` throws is the `Runtime.bindFails` parameter; a
  `ReflectHandler` is taken never to throw.
- The bytecode generation, `LambdaMetafactory` call sites and class loader
  are not modelled.
- The process-wide handler caches are left out.
  - They are keyed by the `Method` alone
    (`LambdaHandler.java` line 24, `ASMHandler.java` line 31).
  - So a second subscriber of the same listener method is bound to the
    first subscriber's instance.
  - Handler construction is abstract here, so this reuse cannot be seen.
- Registry.CreateHandler: the report written by the reflection-exception
  helper is modelled as one `BindFailed` entry. The helper (`Util`) is not
  part of this model, so the number and text of its lines are not stated.
- Registry.CreateHandler: construction of `ReflectHandler` is taken never
  to throw, whether it is the configured kind or the fallback. If it did,
  the exception raised by the second construction (`EventBus.java` line
  114), which is outside the `try`, would escape `subscribe`. By then the
  subscriber would already be in the set (line 48) and the list entry
  created (line 101), possibly left empty. Reached from `setHandlerType`
  through `addHandlers` (line 88), it would escape with the map cleared
  (line 87) and only partly rebuilt. The model does not represent an
  exception escaping `subscribe` or `setHandlerType`.
- Listener bodies are modelled only by whether they cancel the event.
- `Handler.invoke` is not part of this model. This includes any exception a
  listener throws and how it is reported, so a throwing listener is not
  represented.
- Bus.Post: the event is reduced to its exact class and cancelled flag.
  `event.getClass()` lookup is modelled as exact equality of class ids.
- Bus.SetHandlerType: the iteration order of the `HashSet` of subscribers
  is a parameter. It must list every subscriber once.
- Bus.SetHandlerType: a `null` handler type and `Handler` classes other
  than the three library ones are not modelled, since `HandlerKind` has only
  the three library tags. With `null` the code stores it and clears the map
  (`EventBus.java` lines 85-87). Then, for the first well-formed listener,
  the entry is created (line 101) and the constructor lookup at line 109
  throws. The catch at lines 111-112 hands `null` to the class-name helper,
  which is not part of this model; if that throws too, the exception
  escapes with the map partly rebuilt. A user-written `Handler` class would
  behave as its own constructor does.
- Bus.NewBus: the same restriction applies to the handler type given to the
  constructor (line 40), which stores it unchecked.
- Concurrency: the synchronized set, `ConcurrentHashMap` and
  `CopyOnWriteArrayList` are not modelled. Every operation is sequential
  and atomic.
- `getInfo` output: only the listener count is modelled. The info logger,
  the format strings, the per-class counts and the subscriber count line are
  left out. All message texts are left out too; the error log is a
  sequence of structured entries.
- Identity: subscriber identity is Dafny value equality. This stands in for
  `equals`/`hashCode` of the `HashSet` and for `isSubscriber`, and two
  distinct handlers for the same listener and subscriber compare equal.
- Priority is an unbounded integer. The `Handler` class that reads it from
  the annotation is not part of this model.

=== FILE: bus_properties.dfy ===
/**
 Properties that relate several bus operations: unsubscribing undoes
 subscribing, subscribing registers exactly the accepted listeners and
 reports each rejected one once, `post` invokes exactly the handlers the
 cancellation-skip rule lets run, and changing the handler kind yields the
 same handler map as subscribing everybody to a fresh bus.
 */
module BusProperties {
  import opened Model
  import opened HandlerList
  import opened Registry
  import opened Bus
  import opened Dispatching

  /** For an event whose exact class has an entry, `post` invokes a handler
      exactly when the handler sits in that list at a position where the
      cancellation-skip rule lets it run, and returns the flag the pass left. */
  lemma {:induction false} PostInvokes(b: EventBus, e: Event, body: (Handler, Event) -> bool, h: Handler)
    requires e.runtimeType in b.handlers
    ensures
      var hs := b.handlers[e.runtimeType];
      var r := Post(b, Some(e), body);
      && (h in r.invoked <==>
            exists i :: 0 <= i < |hs| && hs[i] == h && Runs(hs[i], CancelledBefore(hs, e, body, i)))
      && r.cancelled == Dispatch(hs, e, body).cancelled
  {
    var hs := b.handlers[e.runtimeType];
    var t := Dispatch(hs, e, body);
    InvokedIff(hs, t.fired, h);
    forall i | 0 <= i < |hs|
      ensures t.fired[i] <==> Runs(hs[i], CancelledBefore(hs, e, body, i))
    {
      FiredIff(hs, e, body, i);
    }
  }

  /** Unsubscribing a subscriber right after subscribing it gives back the
      subscriber set and the handler map the bus had before. */
  lemma {:induction false} UnsubscribeUndoesSubscribe(b: EventBus, s: Subscriber, rt: Runtime)
    requires Valid(b)
    requires s !in b.subscribers
    ensures var b2 := Unsubscribe(Subscribe(b, Some(s), rt), Some(s));
      b2.subscribers == b.subscribers && b2.handlers == b.handlers
  {
    var reg := Register(b.handlers, b.handlerType, s, rt.listeners(s), rt);
    assert Subscribe(b, Some(s), rt).handlers == reg.handlers;
    RegisterWithout(b.handlers, b.handlerType, s, rt.listeners(s), rt);
    forall k | k in b.handlers ensures |b.handlers[k]| > 0 && Without(b.handlers[k], s) == b.handlers[k] {
      assert forall h :: h in b.handlers[k] ==> h.owner in b.subscribers;
      WithoutNone(b.handlers[k], s);
    }
    PruneRestores(b.handlers, reg.handlers, s);
  }

  /** After `unsubscribe`, no handler of the removed subscriber is left in
      any list. */
  lemma {:induction false} UnsubscribeRemovesAll(b: EventBus, s: Subscriber, k: EventType, h: Handler)
    requires s in b.subscribers
    requires h in Lookup(Unsubscribe(b, Some(s)).handlers, k)
    ensures !h.IsSubscriber(s)
    ensures h in Lookup(b.handlers, k)
  {
    WithoutKeepsOthers(b.handlers[k], s);
  }

  lemma {:induction false} PruneRestores(m0: HandlerMap, m1: HandlerMap, s: Subscriber)
    requires forall k :: k in m0 ==> |m0[k]| > 0 && Without(m0[k], s) == m0[k]
    requires m0.Keys <= m1.Keys
    requires forall k :: k in m1 ==> Without(m1[k], s) == Without(Lookup(m0, k), s)
    ensures Prune(RemoveOwned(m1, s)) == m0
  {
    var r := Prune(RemoveOwned(m1, s));
    forall k ensures k in r <==> k in m0 {
      RemoveOwnedAt(m1, s, k);
      if k in m1 && k !in m0 {
        assert Without(Lookup(m0, k), s) == [];
      }
    }
    forall k | k in m0 ensures r[k] == m0[k] {
      RemoveOwnedAt(m1, s, k);
    }
  }

  lemma {:induction false} RemoveOwnedAt(m: HandlerMap, s: Subscriber, k: EventType)
    ensures k in Prune(RemoveOwned(m, s)) <==> k in m && Without(m[k], s) != []
    ensures k in Prune(RemoveOwned(m, s)) ==> Prune(RemoveOwned(m, s))[k] == Without(m[k], s)
  {
  }

  /** Subscribing a new subscriber adds to each list exactly the handlers
      built for its accepted listeners of that event type, and nothing
      else changes in any list. */
  lemma {:induction false} SubscribeRegistersExactly(b: EventBus, s: Subscriber, rt: Runtime, k: EventType, h: Handler)
    requires s !in b.subscribers
    ensures h in Lookup(Subscribe(b, Some(s), rt).handlers, k) <==>
      h in Lookup(b.handlers, k) || Adds(b.handlerType, s, rt.listeners(s), rt, k, h)
  {
    RegisterContents(b.handlers, b.handlerType, s, rt.listeners(s), rt, k, h);
  }

  /** Subscribing a new subscriber logs one "incorrect return type or
      parameters" error per malformed listener of the matching static-ness,
      in discovery order, and one fallback notice per listener whose
      configured handler could not be built. */
  lemma {:induction false} SubscribeLogs(b: EventBus, s: Subscriber, rt: Runtime)
    requires s !in b.subscribers
    ensures var r := Subscribe(b, Some(s), rt);
      && MalformedLogged(r.errors[|b.errors|..]) == MalformedOf(rt.listeners(s), s)
      && DefaultedLogged(r.errors[|b.errors|..]) == FallbackOf(rt.listeners(s), b.handlerType, s, rt)
  {
    var reg := Register(b.handlers, b.handlerType, s, rt.listeners(s), rt);
    var r := Subscribe(b, Some(s), rt);
    assert r.errors == b.errors + reg.logged;
    assert r.errors[|b.errors|..] == reg.logged;
    RegisterLogs(b.handlers, b.handlerType, s, rt.listeners(s), rt);
  }

  /** On a bus configured with the reflective handler kind, subscribing
      logs no fallback notice. */
  lemma {:induction false} ReflectNeverFallsBack(b: EventBus, s: Subscriber, rt: Runtime)
    requires s !in b.subscribers
    requires b.handlerType == ReflectKind
    ensures DefaultedLogged(Subscribe(b, Some(s), rt).errors[|b.errors|..]) == []
  {
    SubscribeLogs(b, s, rt);
    FallbackOfReflect(rt.listeners(s), s, rt);
  }

  /** Subscribing each element of `order` in turn. */
  function SubscribeAll(b: EventBus, order: seq<Subscriber>, rt: Runtime): (r: EventBus)
    ensures forall x :: x in r.subscribers <==> x in b.subscribers || x in order
    decreases |order|
  {
    if |order| == 0 then b
    else
      assert forall x :: x in order <==> x == order[0] || x in order[1..] by {
        assert order == [order[0]] + order[1..];
      }
      SubscribeAll(Subscribe(b, Some(order[0]), rt), order[1..], rt)
  }

  lemma {:induction false} SubscribeAllIsRebuild(b: EventBus, c: EventBus, order: seq<Subscriber>, rt: Runtime)
    requires b.handlers == c.handlers && b.handlerType == c.handlerType
    requires forall i, j :: 0 <= i < j < |order| ==> order[i] != order[j]
    requires forall i :: 0 <= i < |order| ==> order[i] !in c.subscribers
    ensures SubscribeAll(c, order, rt).handlers == Rebuild(b, order, rt).handlers
    decreases |order|
  {
    if |order| > 0 {
      var c' := Subscribe(c, Some(order[0]), rt);
      var b' := AddHandlers(b, order[0], rt);
      assert c'.handlers == b'.handlers;
      forall i | 0 <= i < |order[1..]| ensures order[1..][i] !in c'.subscribers {
        assert order[1..][i] == order[i + 1];
      }
      SubscribeAllIsRebuild(b', c', order[1..], rt);
    }
  }

  /** Switching to a different handler kind leaves the subscriber set alone
      and produces the handler map a fresh bus of that kind would have after
      subscribing the same subscribers in the same order. */
  lemma {:induction false} SetHandlerTypeRebuilds(b: EventBus, kind: HandlerKind, order: seq<Subscriber>, rt: Runtime)
    requires Enumerates(order, b.subscribers)
    requires kind != b.handlerType
    ensures var r := SetHandlerType(b, kind, order, rt);
      var built := SubscribeAll(NewBus(kind), order, rt);
      r.subscribers == built.subscribers && r.handlers == built.handlers
  {
    var cleared := b.(handlerType := kind, handlers := map[]);
    SubscribeAllIsRebuild(cleared, NewBus(kind), order, rt);
    var built := SubscribeAll(NewBus(kind), order, rt);
    forall x | x in order ensures x in b.subscribers {
    }
  }
}

=== FILE: dispatch.dfy ===
/**
 The loop at the heart of `post`: one pass over a handler list in order,
 where a handler runs unless the event is already cancelled and the handler
 does not receive cancelled events. A listener body is modelled only by
 whether it cancels the event it is given.
 */
module Dispatching {
  import opened Model
  import opened HandlerList
  import opened Sequences

  /** One pass over a handler list: `fired[i]` says whether the i-th handler
      was invoked, `cancelled` is the event's flag when the pass ends. */
  datatype Trace = Trace(fired: seq<bool>, cancelled: bool)

  /** The cancellation-skip rule. */
  predicate Runs(h: Handler, cancelled: bool) {
    !cancelled || h.ReceivesCancelled()
  }

  /** One handler's turn: it runs under the cancellation-skip rule, and if
      it runs its listener may cancel the event. */
  function Step(h: Handler, e: Event, body: (Handler, Event) -> bool): Event
  {
    if Runs(h, e.cancelled) then e.(cancelled := e.cancelled || body(h, e)) else e
  }

  /** The pass of `post` over one handler list, in list order. `body(h, e)` says whether the
      listener of `h`, handed `e`, sets the cancelled flag. */
  function Dispatch(hs: seq<Handler>, e: Event, body: (Handler, Event) -> bool): (t: Trace)
    ensures |t.fired| == |hs|
    ensures e.cancelled ==> t.cancelled
    ensures !t.cancelled ==> forall i :: 0 <= i < |hs| ==> t.fired[i]
    decreases |hs|
  {
    if |hs| == 0 then Trace([], e.cancelled)
    else
      var t := Dispatch(hs[1..], Step(hs[0], e, body), body);
      Trace([Runs(hs[0], e.cancelled)] + t.fired, t.cancelled)
  }

  /** The cancelled flag the i-th handler sees. */
  function CancelledBefore(hs: seq<Handler>, e: Event, body: (Handler, Event) -> bool, i: nat): bool
    requires i <= |hs|
  {
    Dispatch(hs[..i], e, body).cancelled
  }

  /** The handlers a pass invoked, in invocation order. */
  function Invoked(hs: seq<Handler>, fired: seq<bool>): (r: seq<Handler>)
    requires |fired| == |hs|
    ensures |r| <= |hs|
    ensures forall h :: h in r ==> h in hs
    ensures Sorted(hs) ==> Sorted(r)
  {
    if |hs| == 0 then []
    else
      var rest := Invoked(hs[1..], fired[1..]);
      assert forall h :: h in hs[1..] ==> h in hs;
      if fired[0] then
        assert Sorted(hs) ==> forall i :: 0 <= i < |rest| ==> hs[0].Priority() <= rest[i].Priority() by {
          if Sorted(hs) {
            forall i | 0 <= i < |rest| ensures hs[0].Priority() <= rest[i].Priority() {
              assert rest[i] in rest;
              var j :| 0 <= j < |hs[1..]| && hs[1..][j] == rest[i];
              assert hs[j + 1] == rest[i];
            }
            SortedSlice(hs, 1, |hs|);
            SortedCons(hs[0], rest);
          }
        }
        [hs[0]] + rest
      else
        assert Sorted(hs) ==> Sorted(rest) by {
          if Sorted(hs) {
            SortedSlice(hs, 1, |hs|);
          }
        }
        rest
  }

  // ----- lemmas -----

  /** A handler is among the invoked ones exactly when it sits at a position
      whose flag says it fired. */
  lemma {:induction false} InvokedIff(hs: seq<Handler>, fired: seq<bool>, h: Handler)
    requires |fired| == |hs|
    ensures h in Invoked(hs, fired) <==> exists i :: 0 <= i < |hs| && fired[i] && hs[i] == h
    decreases |hs|
  {
    if |hs| > 0 {
      InvokedIff(hs[1..], fired[1..], h);
      if h in Invoked(hs[1..], fired[1..]) {
        var j :| 0 <= j < |hs[1..]| && fired[1..][j] && hs[1..][j] == h;
        assert fired[j + 1] && hs[j + 1] == h;
      }
      if exists i :: 0 <= i < |hs| && fired[i] && hs[i] == h {
        var i :| 0 <= i < |hs| && fired[i] && hs[i] == h;
        if i > 0 {
          assert fired[1..][i - 1] && hs[1..][i - 1] == h;
        }
      }
    }
  }

  /** A pass over `a + b` is a pass over `a` followed by a pass over `b`
      starting from the flag `a` left behind. */
  lemma {:induction false} DispatchSplit(a: seq<Handler>, b: seq<Handler>, e: Event, body: (Handler, Event) -> bool)
    ensures
      var ta := Dispatch(a, e, body);
      var tb := Dispatch(b, e.(cancelled := ta.cancelled), body);
      Dispatch(a + b, e, body) == Trace(ta.fired + tb.fired, tb.cancelled)
    decreases |a|
  {
    if |a| == 0 {
      assert a + b == b;
      assert e.(cancelled := e.cancelled) == e;
    } else {
      var e' := Step(a[0], e, body);
      DispatchSplit(a[1..], b, e', body);
      ConcatHead(a, b);
      var ta := Dispatch(a[1..], e', body);
      assert e'.(cancelled := ta.cancelled) == e.(cancelled := ta.cancelled);
      ConcatAssoc([Runs(a[0], e.cancelled)], ta.fired, Dispatch(b, e.(cancelled := ta.cancelled), body).fired);
    }
  }

  /** The i-th handler is invoked exactly when the event is not yet
      cancelled or the handler receives cancelled events. */
  lemma {:induction false} FiredIff(hs: seq<Handler>, e: Event, body: (Handler, Event) -> bool, i: nat)
    requires i < |hs|
    ensures Dispatch(hs, e, body).fired[i] <==> Runs(hs[i], CancelledBefore(hs, e, body, i))
  {
    assert hs == hs[..i] + hs[i..];
    DispatchSplit(hs[..i], hs[i..], e, body);
    assert hs[i..][0] == hs[i];
  }

  /** Once the flag is set it stays set for the rest of the pass. */
  lemma {:induction false} CancelledBeforeMonotone(hs: seq<Handler>, e: Event, body: (Handler, Event) -> bool, j: nat, i: nat)
    requires j <= i <= |hs|
    requires CancelledBefore(hs, e, body, j)
    ensures CancelledBefore(hs, e, body, i)
    ensures Dispatch(hs, e, body).cancelled
  {
    assert hs[..i] == hs[..j] + hs[j..i];
    DispatchSplit(hs[..j], hs[j..i], e, body);
    assert hs == hs[..i] + hs[i..];
    DispatchSplit(hs[..i], hs[i..], e, body);
  }

  /** Once an invoked handler cancels the event, no later handler that
      declines cancelled events runs, and `post` reports cancellation. */
  lemma {:induction false} CancellationSkips(hs: seq<Handler>, e: Event, body: (Handler, Event) -> bool, j: nat, i: nat)
    requires j < i < |hs|
    requires Dispatch(hs, e, body).fired[j]
    requires body(hs[j], e.(cancelled := CancelledBefore(hs, e, body, j)))
    requires !hs[i].ReceivesCancelled()
    ensures !Dispatch(hs, e, body).fired[i]
    ensures Dispatch(hs, e, body).cancelled
  {
    FiredIff(hs, e, body, j);
    var c := CancelledBefore(hs, e, body, j);
    assert hs[..j + 1] == hs[..j] + [hs[j]];
    DispatchSplit(hs[..j], [hs[j]], e, body);
    assert [hs[j]][1..] == [];
    assert CancelledBefore(hs, e, body, j + 1);
    CancelledBeforeMonotone(hs, e, body, j + 1, i);
    FiredIff(hs, e, body, i);
  }

  /** The final flag is set exactly when the event arrived cancelled or some
      invoked handler cancelled it. */
  lemma {:induction false} CancelledIff(hs: seq<Handler>, e: Event, body: (Handler, Event) -> bool)
    ensures
      var t := Dispatch(hs, e, body);
      t.cancelled <==>
        e.cancelled ||
        exists i :: 0 <= i < |hs| && t.fired[i] && body(hs[i], e.(cancelled := CancelledBefore(hs, e, body, i)))
    decreases |hs|
  {
    var t := Dispatch(hs, e, body);
    if |hs| > 0 && Runs(hs[0], e.cancelled) {
      var e' := Step(hs[0], e, body);
      var rest := hs[1..];
      var t' := Dispatch(rest, e', body);
      CancelledIff(rest, e', body);
      assert Dispatch(hs[..0], e, body).cancelled == e.cancelled;
      assert e.(cancelled := e.cancelled) == e;
      forall j | 0 <= j < |rest|
        ensures hs[j + 1] == rest[j] && t.fired[j + 1] == t'.fired[j]
        ensures CancelledBefore(hs, e, body, j + 1) == CancelledBefore(rest, e', body, j)
      {
        assert hs[..j + 1][0] == hs[0];
        assert hs[..j + 1][1..] == rest[..j];
      }
      if t.cancelled && !e.cancelled && !body(hs[0], e) {
        var j :| 0 <= j < |rest| && t'.fired[j] && body(rest[j], e'.(cancelled := CancelledBefore(rest, e', body, j)));
        assert e'.(cancelled := CancelledBefore(rest, e', body, j)) == e.(cancelled := CancelledBefore(hs, e, body, j + 1));
      }
      if exists i :: 0 <= i < |hs| && t.fired[i] && body(hs[i], e.(cancelled := CancelledBefore(hs, e, body, i))) {
        var i :| 0 <= i < |hs| && t.fired[i] && body(hs[i], e.(cancelled := CancelledBefore(hs, e, body, i)));
        if i > 0 {
          assert e'.(cancelled := CancelledBefore(rest, e', body, i - 1)) == e.(cancelled := CancelledBefore(hs, e, body, i));
        }
      }
    }
  }
}

=== FILE: event_bus.dfy ===
/**
 The `EventBus` class: the subscriber set, the handler map, the configured
 handler kind, and the public operations `subscribe`, `unsubscribe`, `post`
 and `setHandlerType`. `subscribe`, `unsubscribe` and `setHandlerType` map
 the old bus to the new one; `post` reads the bus and returns what it
 delivered. The error logger is the `errors` sequence.
 */
module Bus {
  import opened Model
  import opened HandlerList
  import opened Dispatching
  import opened Registry

  datatype EventBus = EventBus(
    subscribers: set<Subscriber>,
    handlers: HandlerMap,
    handlerType: HandlerKind,
    errors: seq<LogEntry>)

  /** The invariant every reachable bus keeps. */
  predicate Valid(b: EventBus) {
    WellFormedMap(b.handlers, b.subscribers)
  }

  /** The constructors: no subscribers, no handlers, the given kind (the
      no-argument constructor picks `LambdaKind`). */
  function NewBus(kind: HandlerKind): (b: EventBus)
    ensures Valid(b)
    ensures b.subscribers == {} && b.handlers == map[] && b.handlerType == kind
  {
    EventBus({}, map[], kind, [])
  }

  /** `addHandlers` for one subscriber, with the bus's current handler kind. */
  function AddHandlers(b: EventBus, s: Subscriber, rt: Runtime): (r: EventBus)
    ensures r.subscribers == b.subscribers && r.handlerType == b.handlerType
    ensures b.errors <= r.errors
    ensures s in b.subscribers && Valid(b) ==> Valid(r)
  {
    var reg := Register(b.handlers, b.handlerType, s, rt.listeners(s), rt);
    assert s in b.subscribers && Valid(b) ==> WellFormedMap(reg.handlers, b.subscribers) by {
      if s in b.subscribers && Valid(b) {
        RegisterWellFormed(b.handlers, b.handlerType, s, rt.listeners(s), rt, b.subscribers);
      }
    }
    b.(handlers := reg.handlers, errors := b.errors + reg.logged)
  }

  /** `subscribe`: ignored for `null` and for a current member; otherwise
      the subscriber joins the set and its handlers are added. */
  function Subscribe(b: EventBus, s: Option<Subscriber>, rt: Runtime): (r: EventBus)
    ensures s.None? || s.value in b.subscribers ==> r == b
    ensures s.Some? ==> r.subscribers == b.subscribers + {s.value}
    ensures r.handlerType == b.handlerType
    ensures b.errors <= r.errors
    ensures Valid(b) ==> Valid(r)
  {
    if s.None? || s.value in b.subscribers then b
    else AddHandlers(b.(subscribers := b.subscribers + {s.value}), s.value, rt)
  }

  /** The second step of `unsubscribe`: every entry whose list is empty is
      dropped from the map. */
  function Prune(m: HandlerMap): (r: HandlerMap)
    ensures forall k :: k in r ==> |r[k]| > 0
    ensures forall k :: k in m && |m[k]| > 0 ==> k in r && r[k] == m[k]
    ensures r.Keys <= m.Keys
  {
    map k | k in m && |m[k]| > 0 :: m[k]
  }

  /** The `removeIf` over every handler list. */
  function RemoveOwned(m: HandlerMap, s: Subscriber): (r: HandlerMap)
    ensures r.Keys == m.Keys
    ensures forall k, i :: k in r && 0 <= i < |r[k]| ==> !r[k][i].IsSubscriber(s)
  {
    map k | k in m :: Without(m[k], s)
  }

  /** `unsubscribe`: ignored for `null` and for a non-member; otherwise the
      subscriber leaves the set, all of its handlers leave every list, and
      lists left empty are dropped. */
  function Unsubscribe(b: EventBus, s: Option<Subscriber>): (r: EventBus)
    ensures s.None? || s.value !in b.subscribers ==> r == b
    ensures s.Some? ==> r.subscribers == b.subscribers - {s.value}
    ensures r.handlerType == b.handlerType && r.errors == b.errors
    ensures s.Some? && s.value in b.subscribers ==>
      && (forall k :: k in r.handlers ==> |r.handlers[k]| > 0)
      && (forall k :: k in r.handlers <==> k in b.handlers && Without(b.handlers[k], s.value) != [])
      && (forall k :: k in r.handlers ==> r.handlers[k] == Without(b.handlers[k], s.value))
    ensures Valid(b) ==> Valid(r)
  {
    if s.None? || s.value !in b.subscribers then b
    else
      var subscribers := b.subscribers - {s.value};
      var handlers := Prune(RemoveOwned(b.handlers, s.value));
      assert Valid(b) ==> WellFormedMap(handlers, subscribers) by {
        if Valid(b) {
          forall k | k in handlers
            ensures Sorted(handlers[k])
            ensures forall h :: h in handlers[k] ==> Registered(h, k, subscribers)
          {
            assert handlers[k] == Without(b.handlers[k], s.value);
            WithoutKeepsOthers(b.handlers[k], s.value);
          }
        }
      }
      EventBus(subscribers, handlers, b.handlerType, b.errors)
  }

  /** What `post` did: the handlers it invoked, in order, and its result. */
  datatype Delivery = Delivery(invoked: seq<Handler>, cancelled: bool)

  /** `post`: `false` and no call for `null` or for an event whose exact
      class has no entry; otherwise one pass over that entry's list,
      returning the final cancelled flag. */
  function Post(b: EventBus, event: Option<Event>, body: (Handler, Event) -> bool): (r: Delivery)
    ensures event.None? ==> r == Delivery([], false)
    ensures event.Some? && event.value.runtimeType !in b.handlers ==> r == Delivery([], false)
    ensures event.Some? && event.value.runtimeType in b.handlers && event.value.cancelled ==> r.cancelled
    ensures event.Some? && Valid(b) ==>
      && Sorted(r.invoked)
      && forall h :: h in r.invoked ==> h.listener.paramType == event.value.runtimeType
  {
    if event.None? then Delivery([], false)
    else if event.value.runtimeType !in b.handlers then Delivery([], false)
    else
      var hs := b.handlers[event.value.runtimeType];
      var t := Dispatch(hs, event.value, body);
      Delivery(Invoked(hs, t.fired), t.cancelled)
  }

  /** `addHandlers` run for each subscriber in turn, starting from `b`'s
      handler map, in the order `order` the set is iterated. */
  function Rebuild(b: EventBus, order: seq<Subscriber>, rt: Runtime): (r: EventBus)
    ensures r.subscribers == b.subscribers && r.handlerType == b.handlerType
    ensures b.errors <= r.errors
    ensures (forall i :: 0 <= i < |order| ==> order[i] in b.subscribers) && Valid(b) ==> Valid(r)
    decreases |order|
  {
    if |order| == 0 then b
    else Rebuild(AddHandlers(b, order[0], rt), order[1..], rt)
  }

  /** `order` lists every element of `s` exactly once: one iteration order
      of a Java set. */
  predicate Enumerates(order: seq<Subscriber>, s: set<Subscriber>) {
    && (forall i, j :: 0 <= i < j < |order| ==> order[i] != order[j])
    && (forall i :: 0 <= i < |order| ==> order[i] in s)
    && (forall x :: x in s ==> x in order)
  }

  /** `setHandlerType`: nothing for the current kind; otherwise the map is
      cleared and rebuilt for every subscriber with the new kind, and the
      subscriber set stays as it was. */
  function SetHandlerType(b: EventBus, kind: HandlerKind, order: seq<Subscriber>, rt: Runtime): (r: EventBus)
    requires Enumerates(order, b.subscribers)
    ensures kind == b.handlerType ==> r == b
    ensures r.subscribers == b.subscribers && r.handlerType == kind
    ensures b.errors <= r.errors
    ensures kind != b.handlerType ==> Valid(r)
    ensures Valid(b) ==> Valid(r)
  {
    if kind == b.handlerType then b
    else
      var cleared := b.(handlerType := kind, handlers := map[]);
      Rebuild(cleared, order, rt)
  }
}

=== FILE: handler_list.dfy ===
/**
 Operations on the handler list of one event type: adding a handler and
 re-sorting by priority with a stable sort, and removing every handler of a
 subscriber.
 */
module HandlerList {
  import opened Model
  import opened Sequences

  /** Priorities never decrease along the list. */
  predicate Sorted(hs: seq<Handler>) {
    forall i, j :: 0 <= i < j < |hs| ==> hs[i].Priority() <= hs[j].Priority()
  }

  /** The handlers of `hs` whose priority is `p`, in list order. */
  function WithPriority(hs: seq<Handler>, p: int): seq<Handler>
  {
    if |hs| == 0 then []
    else (if hs[0].Priority() == p then [hs[0]] else []) + WithPriority(hs[1..], p)
  }

  /** Reference definition of a stable sort by priority: the result is
      sorted, and within every priority the handlers keep the order they
      had in `s`. */
  ghost predicate IsStableSortOf(r: seq<Handler>, s: seq<Handler>) {
    && Sorted(r)
    && forall p :: WithPriority(r, p) == WithPriority(s, p)
  }

  /** Places `h` after every leading handler whose priority is at most its
      own. */
  function Insert(hs: seq<Handler>, h: Handler): (r: seq<Handler>)
    ensures |r| == |hs| + 1
    ensures multiset(r) == multiset(hs) + multiset{h}
  {
    if |hs| == 0 then [h]
    else if h.Priority() < hs[0].Priority() then [h] + hs
    else
      assert hs == [hs[0]] + hs[1..];
      [hs[0]] + Insert(hs[1..], h)
  }

  /** The list sort by ascending priority, modelled as an insertion sort, which is
      stable because each handler goes after the equal ones before it. */
  function StableSort(s: seq<Handler>): (r: seq<Handler>)
    ensures Sorted(r)
    ensures multiset(r) == multiset(s)
  {
    if |s| == 0 then []
    else
      assert s == s[..|s| - 1] + [s[|s| - 1]];
      var init := StableSort(s[..|s| - 1]);
      InsertSorted(init, s[|s| - 1]);
      Insert(init, s[|s| - 1])
  }

  /** The new handler is appended to the list, and the list is then sorted
      again by priority. */
  function AddSorted(hs: seq<Handler>, h: Handler): (r: seq<Handler>)
    ensures Sorted(r)
    ensures multiset(r) == multiset(hs) + multiset{h}
  {
    StableSort(hs + [h])
  }

  /** The handlers of the list after adding `h` are those before and `h`. */
  lemma {:induction false} AddSortedMembers(hs: seq<Handler>, h: Handler, x: Handler)
    ensures x in AddSorted(hs, h) <==> x in hs || x == h
  {
    assert x in AddSorted(hs, h) <==> x in multiset(AddSorted(hs, h));
    assert x in hs <==> x in multiset(hs);
  }

  /** The first step of `unsubscribe` on one list: every handler owned by `s`
      is removed, the others keep their order. */
  function Without(hs: seq<Handler>, s: Subscriber): (r: seq<Handler>)
    ensures |r| <= |hs|
    ensures forall i :: 0 <= i < |r| ==> !r[i].IsSubscriber(s)
  {
    if |hs| == 0 then []
    else if hs[0].IsSubscriber(s) then Without(hs[1..], s)
    else [hs[0]] + Without(hs[1..], s)
  }

  /** `removeIf` keeps exactly the handlers of other subscribers, and a
      sorted list stays sorted. */
  lemma {:induction false} WithoutKeepsOthers(hs: seq<Handler>, s: Subscriber)
    ensures forall h :: h in Without(hs, s) <==> h in hs && !h.IsSubscriber(s)
    ensures Sorted(hs) ==> Sorted(Without(hs, s))
    decreases |hs|
  {
    if |hs| > 0 {
      var rest := Without(hs[1..], s);
      WithoutKeepsOthers(hs[1..], s);
      assert forall h :: h in hs <==> h == hs[0] || h in hs[1..] by {
        assert hs == [hs[0]] + hs[1..];
      }
      if !hs[0].IsSubscriber(s) && Sorted(hs) {
        forall i | 0 <= i < |rest| ensures hs[0].Priority() <= rest[i].Priority() {
          assert rest[i] in rest;
          var j :| 0 <= j < |hs[1..]| && hs[1..][j] == rest[i];
          assert hs[j + 1] == rest[i];
        }
        SortedSlice(hs, 1, |hs|);
        SortedCons(hs[0], rest);
      } else if Sorted(hs) {
        SortedSlice(hs, 1, |hs|);
      }
    }
  }

  // ----- lemmas -----

  lemma {:induction false} SortedCons(x: Handler, s: seq<Handler>)
    requires Sorted(s)
    requires forall i :: 0 <= i < |s| ==> x.Priority() <= s[i].Priority()
    ensures Sorted([x] + s)
  {
    forall i, j | 0 <= i < j < |[x] + s|
      ensures ([x] + s)[i].Priority() <= ([x] + s)[j].Priority()
    {
      if i > 0 {
        assert ([x] + s)[i] == s[i - 1];
      }
      assert ([x] + s)[j] == s[j - 1];
    }
  }

  /** Inserting into a sorted list keeps it sorted. */
  lemma {:induction false} InsertSorted(hs: seq<Handler>, h: Handler)
    requires Sorted(hs)
    ensures Sorted(Insert(hs, h))
    decreases |hs|
  {
    if |hs| == 0 {
    } else if h.Priority() < hs[0].Priority() {
      SortedCons(h, hs);
    } else {
      var rest := Insert(hs[1..], h);
      InsertSorted(hs[1..], h);
      forall i | 0 <= i < |rest| ensures hs[0].Priority() <= rest[i].Priority() {
        assert rest[i] in multiset(rest);
        if rest[i] != h {
          assert rest[i] in hs[1..];
        }
      }
      SortedCons(hs[0], rest);
    }
  }

  lemma {:induction false} WithPriorityConcat(a: seq<Handler>, b: seq<Handler>, p: int)
    ensures WithPriority(a + b, p) == WithPriority(a, p) + WithPriority(b, p)
    decreases |a|
  {
    if |a| == 0 {
      assert a + b == b;
    } else {
      ConcatHead(a, b);
      WithPriorityConcat(a[1..], b, p);
      ConcatAssoc(if a[0].Priority() == p then [a[0]] else [], WithPriority(a[1..], p), WithPriority(b, p));
    }
  }

  lemma {:induction false} WithPriorityNone(hs: seq<Handler>, p: int)
    requires forall i :: 0 <= i < |hs| ==> hs[i].Priority() != p
    ensures WithPriority(hs, p) == []
    decreases |hs|
  {
    if |hs| > 0 {
      WithPriorityNone(hs[1..], p);
    }
  }

  lemma {:induction false} SortedSlice(hs: seq<Handler>, lo: nat, hi: nat)
    requires Sorted(hs)
    requires lo <= hi <= |hs|
    ensures Sorted(hs[lo..hi])
  {
    forall i, j | 0 <= i < j < hi - lo
      ensures hs[lo..hi][i].Priority() <= hs[lo..hi][j].Priority()
    {
      assert hs[lo..hi][i] == hs[lo + i] && hs[lo..hi][j] == hs[lo + j];
    }
  }

  lemma {:induction false} WithPriorityBelowSorted(hs: seq<Handler>, p: int)
    requires Sorted(hs)
    requires |hs| > 0 && p < hs[0].Priority()
    ensures WithPriority(hs, p) == []
  {
    forall i | 0 <= i < |hs| ensures hs[i].Priority() != p {
      assert hs[0].Priority() <= hs[i].Priority();
    }
    WithPriorityNone(hs, p);
  }

  /** Inserting into a sorted list puts `h` after every handler of equal
      priority and leaves the other priorities untouched. */
  lemma {:induction false} InsertWithPriority(hs: seq<Handler>, h: Handler, p: int)
    requires Sorted(hs)
    ensures WithPriority(Insert(hs, h), p) == WithPriority(hs + [h], p)
    decreases |hs|
  {
    if |hs| == 0 {
      assert hs + [h] == [h];
    } else if h.Priority() < hs[0].Priority() {
      InsertFront(hs, h, p);
    } else {
      SortedSlice(hs, 1, |hs|);
      InsertWithPriority(hs[1..], h, p);
      InsertStep(hs, h, p);
    }
  }

  /** The case where `h` goes before the whole list. */
  lemma {:induction false} InsertFront(hs: seq<Handler>, h: Handler, p: int)
    requires Sorted(hs)
    requires |hs| > 0 && h.Priority() < hs[0].Priority()
    ensures WithPriority(Insert(hs, h), p) == WithPriority(hs + [h], p)
  {
    WithPriorityConcat(hs, [h], p);
    assert ([h] + hs)[1..] == hs;
    if h.Priority() == p {
      WithPriorityBelowSorted(hs, p);
    }
  }

  /** The case where `h` goes after the head, given the claim for the tail. */
  lemma {:induction false} InsertStep(hs: seq<Handler>, h: Handler, p: int)
    requires |hs| > 0 && hs[0].Priority() <= h.Priority()
    requires WithPriority(Insert(hs[1..], h), p) == WithPriority(hs[1..] + [h], p)
    ensures WithPriority(Insert(hs, h), p) == WithPriority(hs + [h], p)
  {
    var rest := Insert(hs[1..], h);
    assert Insert(hs, h) == [hs[0]] + rest;
    assert (hs + [h])[0] == hs[0] && (hs + [h])[1..] == hs[1..] + [h];
  }

  /** `StableSort` meets the reference definition of a stable sort. */
  lemma {:induction false} StableSortIsStable(s: seq<Handler>)
    ensures IsStableSortOf(StableSort(s), s)
    decreases |s|
  {
    if |s| > 0 {
      var init := s[..|s| - 1];
      var last := s[|s| - 1];
      StableSortIsStable(init);
      forall p ensures WithPriority(StableSort(s), p) == WithPriority(s, p) {
        InsertWithPriority(StableSort(init), last, p);
        WithPriorityConcat(StableSort(init), [last], p);
        WithPriorityConcat(init, [last], p);
        assert s == init + [last];
      }
    }
  }

  lemma {:induction false} InsertAtEnd(hs: seq<Handler>, h: Handler)
    requires forall i :: 0 <= i < |hs| ==> hs[i].Priority() <= h.Priority()
    ensures Insert(hs, h) == hs + [h]
    decreases |hs|
  {
    if |hs| > 0 {
      assert hs[0].Priority() <= h.Priority();
      assert forall i :: 0 <= i < |hs[1..]| ==> hs[1..][i] == hs[i + 1];
      InsertAtEnd(hs[1..], h);
      ConcatAssoc([hs[0]], hs[1..], [h]);
      assert hs == [hs[0]] + hs[1..];
    }
  }

  /** Sorting an already sorted list changes nothing. */
  lemma {:induction false} StableSortSorted(hs: seq<Handler>)
    requires Sorted(hs)
    ensures StableSort(hs) == hs
    decreases |hs|
  {
    if |hs| > 0 {
      var n := |hs|;
      var init := hs[..n - 1];
      assert hs == init + [hs[n - 1]];
      SortedSlice(hs, 0, n - 1);
      StableSortSorted(init);
      assert StableSort(hs) == Insert(init, hs[n - 1]);
      forall i | 0 <= i < |init| ensures init[i].Priority() <= hs[n - 1].Priority() {
        assert init[i] == hs[i];
      }
      InsertAtEnd(init, hs[n - 1]);
    }
  }

  /** On a sorted list, add-then-sort is a single stable insertion. */
  lemma {:induction false} AddSortedIsInsert(hs: seq<Handler>, h: Handler)
    requires Sorted(hs)
    ensures AddSorted(hs, h) == Insert(hs, h)
  {
    assert (hs + [h])[..|hs|] == hs;
    StableSortSorted(hs);
  }

  /** Adding a handler keeps the existing handlers in their relative order,
      puts the new one after every handler of equal priority, and the list
      stays sorted. */
  lemma {:induction false} AddSortedIsStable(hs: seq<Handler>, h: Handler)
    ensures IsStableSortOf(AddSorted(hs, h), hs + [h])
    ensures WithPriority(AddSorted(hs, h), h.Priority()) == WithPriority(hs, h.Priority()) + [h]
  {
    StableSortIsStable(hs + [h]);
    WithPriorityConcat(hs, [h], h.Priority());
  }

  lemma {:induction false} WithoutConcat(a: seq<Handler>, b: seq<Handler>, s: Subscriber)
    ensures Without(a + b, s) == Without(a, s) + Without(b, s)
    decreases |a|
  {
    if |a| == 0 {
      assert a + b == b;
    } else {
      ConcatHead(a, b);
      WithoutConcat(a[1..], b, s);
      if !a[0].IsSubscriber(s) {
        ConcatAssoc([a[0]], Without(a[1..], s), Without(b, s));
      }
    }
  }

  /** Removing `s`'s handlers undoes inserting one of them. */
  lemma {:induction false} WithoutInsert(hs: seq<Handler>, h: Handler, s: Subscriber)
    requires h.IsSubscriber(s)
    ensures Without(Insert(hs, h), s) == Without(hs, s)
    decreases |hs|
  {
    if |hs| == 0 {
    } else if h.Priority() < hs[0].Priority() {
      assert ([h] + hs)[1..] == hs;
    } else {
      var rest := Insert(hs[1..], h);
      assert ([hs[0]] + rest)[1..] == rest;
      WithoutInsert(hs[1..], h, s);
    }
  }

  /** On a sorted list, removing `s`'s handlers undoes adding one of them. */
  lemma {:induction false} WithoutAddSorted(hs: seq<Handler>, h: Handler, s: Subscriber)
    requires Sorted(hs)
    requires h.IsSubscriber(s)
    ensures Without(AddSorted(hs, h), s) == Without(hs, s)
  {
    AddSortedIsInsert(hs, h);
    WithoutInsert(hs, h, s);
  }

  /** Removing the handlers of a subscriber that owns none changes nothing. */
  lemma {:induction false} WithoutNone(hs: seq<Handler>, s: Subscriber)
    requires forall h :: h in hs ==> !h.IsSubscriber(s)
    ensures Without(hs, s) == hs
    decreases |hs|
  {
    if |hs| > 0 {
      assert hs == [hs[0]] + hs[1..];
      WithoutNone(hs[1..], s);
    }
  }
}

=== FILE: info.dfy ===
/**
 The "Listener count" line of `getInfo`: the number of handlers over all
 lists of the map, and how subscribing changes it.
 */
module Info {
  import opened Model
  import opened Registry
  import opened Bus

  /** Reference definition: the sum of the list lengths, taken one entry at
      a time in an arbitrary order. */
  ghost function TotalCount(m: HandlerMap): nat
    decreases m.Keys
  {
    if m.Keys == {} then 0
    else
      var k :| k in m;
      |m[k]| + TotalCount(m - {k})
  }

  /** The sum does not depend on which entry is taken first. */
  lemma {:induction false} TotalCountRemove(m: HandlerMap, k: EventType)
    requires k in m
    ensures TotalCount(m) == |m[k]| + TotalCount(m - {k})
    decreases m.Keys
  {
    var j :| j in m && TotalCount(m) == |m[j]| + TotalCount(m - {j});
    if j != k {
      TotalCountRemove(m - {j}, k);
      TotalCountRemove(m - {k}, j);
      assert m - {j} - {k} == m - {k} - {j};
    }
  }

  /** Replacing one list changes the sum by the difference in length. */
  lemma {:induction false} TotalCountUpdate(m: HandlerMap, k: EventType, v: seq<Handler>)
    ensures TotalCount(m[k := v]) + |Lookup(m, k)| == TotalCount(m) + |v|
  {
    TotalCountRemove(m[k := v], k);
    assert m[k := v] - {k} == m - {k};
    if k in m {
      TotalCountRemove(m, k);
    } else {
      assert m - {k} == m;
    }
  }

  /** The annotated methods of `s` that `addHandlers` turns into handlers:
      the right static-ness and the right shape. */
  function AcceptedOf(ls: seq<Listener>, s: Subscriber): seq<Listener>
  {
    if |ls| == 0 then []
    else (if ls[0].Matches(s) && ls[0].WellFormed() then [ls[0]] else []) + AcceptedOf(ls[1..], s)
  }

  /** Each accepted listener adds exactly one handler; nothing else is
      added or lost. */
  lemma {:induction false} RegisterCount(m: HandlerMap, kind: HandlerKind, s: Subscriber, ls: seq<Listener>, rt: Runtime)
    ensures TotalCount(Register(m, kind, s, ls, rt).handlers) == TotalCount(m) + |AcceptedOf(ls, s)|
    decreases |ls|
  {
    if |ls| > 0 {
      var l := ls[0];
      var first := Consider(m, kind, s, l, rt);
      RegisterCount(first.handlers, kind, s, ls[1..], rt);
      if l.Matches(s) && l.WellFormed() {
        TotalCountUpdate(m, l.paramType, first.handlers[l.paramType]);
        assert first.handlers == m[l.paramType := first.handlers[l.paramType]];
      }
    }
  }

  /** Subscribing a new subscriber raises the listener count by the number
      of its accepted listeners. */
  lemma {:induction false} SubscribeCount(b: EventBus, s: Subscriber, rt: Runtime)
    requires s !in b.subscribers
    ensures TotalCount(Subscribe(b, Some(s), rt).handlers) ==
      TotalCount(b.handlers) + |AcceptedOf(rt.listeners(s), s)|
  {
    RegisterCount(b.handlers, b.handlerType, s, rt.listeners(s), rt);
  }

  /** The listener count `getInfo` reports: the lengths of all handler lists,
      added up entry by entry. */
  method ListenerCount(b: EventBus) returns (total: nat)
    ensures total == TotalCount(b.handlers)
  {
    total := 0;
    var rest := b.handlers;
    while rest.Keys != {}
      invariant total + TotalCount(rest) == TotalCount(b.handlers)
      decreases rest.Keys
    {
      var k :| k in rest;
      TotalCountRemove(rest, k);
      total := total + |rest[k]|;
      rest := rest - {k};
    }
  }
}

=== FILE: model.dfy ===
/**
 The values the event bus works with: subscribers, events, listener
 descriptors (what reflection reports about one annotated method), bound
 handlers and the entries written to the error logger.
 */
module Model {

  /** A Java reference that may be `null`. */
  datatype Option<+T> = None | Some(value: T)

  /** Identity of a Java class deriving from `Event`: an event's exact
      runtime class, or a listener's declared parameter class. */
  type EventType = nat

  /** What `subscribe` is handed: an object, whose instance listeners are
      registered, or a `Class`, whose static listeners are registered.
      Equality of these values is the identity the subscriber set uses. */
  datatype Subscriber = Instance(id: nat) | ClassRef(id: nat) {
    predicate IsClass() { ClassRef? }
  }

  /** An event as far as the bus can see it: its exact runtime class and its
      cancelled flag. */
  datatype Event = Event(runtimeType: EventType, cancelled: bool)

  /** One public method carrying the listener annotation, as reflection
      describes it. `paramType` is meaningful only when `paramCount >= 1`. */
  datatype Listener = Listener(
    methodId: nat,
    isStatic: bool,
    returnsVoid: bool,
    paramCount: nat,
    paramType: EventType,
    paramIsEvent: bool,
    priority: int,
    receiveCancelled: bool)
  {
    /** Void return, exactly one parameter, and that parameter an `Event`. */
    predicate WellFormed() {
      returnsVoid && paramCount == 1 && paramIsEvent
    }

    /** Static listeners belong to class subscribers, instance listeners to
        object subscribers. */
    predicate Matches(s: Subscriber) {
      s.IsClass() == isStatic
    }
  }

  /** The configured `Handler` subclass: the reflective fallback, or one of
      the two strategies that build a bound callable once. */
  datatype HandlerKind = ReflectKind | LambdaKind | AsmKind

  /** A listener bound to the subscriber it was discovered on. */
  datatype Handler = Handler(listener: Listener, owner: Subscriber, kind: HandlerKind) {
    function Priority(): int { listener.priority }
    predicate ReceivesCancelled() { listener.receiveCancelled }
    predicate IsSubscriber(s: Subscriber) { owner == s }
  }

  /** What the bus writes to its error logger. `BindFailed` stands for
      everything the reflection-exception helper reports for one failed
      construction; `Defaulted` is the "Defaulting to ReflectHandler" line. */
  datatype LogEntry =
    | Malformed(listener: Listener)
    | BindFailed(kind: HandlerKind, listener: Listener)
    | Defaulted(listener: Listener)

  /** The parts of the Java runtime the bus consults but that are not
      modelled: which annotated methods a subscriber's class declares, in
      `getMethods` order, and whether constructing a handler of a given kind
      throws. */
  datatype Runtime = Runtime(
    listeners: Subscriber -> seq<Listener>,
    bindFails: (HandlerKind, Listener, Subscriber) -> bool)
  {
    /** Construction of the configured kind throws and the bus falls back.
        The reflective handler, which is also the fallback, is taken never
        to throw, so `bindFails` is not consulted for it. */
    predicate Fails(kind: HandlerKind, l: Listener, s: Subscriber) {
      kind != ReflectKind && bindFails(kind, l, s)
    }
  }
}

=== FILE: registry.dfy ===
/**
 The handler map of the bus and how `addHandlers` fills it: for each
 annotated method of the subscriber whose static-ness matches the subscriber
 kind, reject it with one error if its shape is wrong, otherwise build a
 handler (falling back to the reflective one when the configured kind fails)
 and add it to the list for its parameter type, re-sorted by priority.
 */
module Registry {
  import opened Model
  import opened HandlerList
  import opened Sequences

  /** Exact event type to its handlers. */
  type HandlerMap = map<EventType, seq<Handler>>

  /** The list of `k`, or the empty list when there is no entry. */
  function Lookup(m: HandlerMap, k: EventType): seq<Handler> {
    if k in m then m[k] else []
  }

  /** `h` may sit in the list of `k`: it was built from a well-formed
      listener of a current subscriber, of the right static-ness, whose
      parameter type is exactly `k`. */
  predicate Registered(h: Handler, k: EventType, subscribers: set<Subscriber>) {
    && h.listener.paramType == k
    && h.listener.WellFormed()
    && h.listener.Matches(h.owner)
    && h.owner in subscribers
  }

  /** The invariant of the handler map: no entry is empty, every list is
      sorted by priority, and every handler is registered under its own
      parameter type by a current subscriber. */
  predicate WellFormedMap(m: HandlerMap, subscribers: set<Subscriber>) {
    forall k :: k in m ==>
      && |m[k]| > 0
      && Sorted(m[k])
      && forall h :: h in m[k] ==> Registered(h, k, subscribers)
  }

  predicate AllSorted(m: HandlerMap) {
    forall k :: k in m ==> Sorted(m[k])
  }

  /** A handler built by `createHandler` and the errors it logged. */
  datatype Created = Created(handler: Handler, logged: seq<LogEntry>)

  /** `createHandler`: instantiate the configured kind, or on failure log it
      and fall back to the reflective handler. */
  function CreateHandler(kind: HandlerKind, l: Listener, s: Subscriber, rt: Runtime): (r: Created)
    ensures r.handler.listener == l && r.handler.owner == s
    ensures !rt.Fails(kind, l, s) ==> r.handler.kind == kind && r.logged == []
    ensures kind == ReflectKind ==> r.handler.kind == ReflectKind && r.logged == []
    ensures rt.Fails(kind, l, s) ==>
      && r.handler.kind == ReflectKind
      && r.logged != []
      && forall e :: e in r.logged ==> e.listener == l
  {
    if rt.Fails(kind, l, s) then
      Created(Handler(l, s, ReflectKind), [BindFailed(kind, l), Defaulted(l)])
    else
      Created(Handler(l, s, kind), [])
  }

  /** The handler map after some listeners were processed, and the errors
      logged while doing so. */
  datatype Registration = Registration(handlers: HandlerMap, logged: seq<LogEntry>)

  /** The body of the `forEach` in `addHandlers`, for one listener that
      passed the static-ness filter. */
  function RegisterOne(m: HandlerMap, kind: HandlerKind, s: Subscriber, l: Listener, rt: Runtime): (r: Registration)
    ensures !l.WellFormed() ==> r == Registration(m, [Malformed(l)])
    ensures l.WellFormed() ==>
      && r.handlers.Keys == m.Keys + {l.paramType}
      && (forall k :: k in m && k != l.paramType ==> r.handlers[k] == m[k])
      && |r.handlers[l.paramType]| == |Lookup(m, l.paramType)| + 1
      && multiset(r.handlers[l.paramType]) ==
         multiset(Lookup(m, l.paramType)) + multiset{CreateHandler(kind, l, s, rt).handler}
      && r.logged == CreateHandler(kind, l, s, rt).logged
      && forall e :: e in r.logged ==> !e.Malformed?
    ensures AllSorted(m) ==> AllSorted(r.handlers)
  {
    if !l.WellFormed() then
      Registration(m, [Malformed(l)])
    else
      var c := CreateHandler(kind, l, s, rt);
      var hs := Lookup(m, l.paramType);
      Registration(m[l.paramType := AddSorted(hs, c.handler)], c.logged)
  }

  /** One element of the `addHandlers` stream: listeners whose static-ness
      does not match the subscriber kind are filtered out silently. */
  function Consider(m: HandlerMap, kind: HandlerKind, s: Subscriber, l: Listener, rt: Runtime): (r: Registration)
    ensures !l.Matches(s) ==> r == Registration(m, [])
    ensures m.Keys <= r.handlers.Keys
    ensures AllSorted(m) ==> AllSorted(r.handlers)
  {
    if l.Matches(s) then RegisterOne(m, kind, s, l, rt) else Registration(m, [])
  }

  /** The `addHandlers` stream over the annotated methods `ls`, in order. */
  function Register(m: HandlerMap, kind: HandlerKind, s: Subscriber, ls: seq<Listener>, rt: Runtime): (r: Registration)
    ensures m.Keys <= r.handlers.Keys
    ensures AllSorted(m) ==> AllSorted(r.handlers)
    decreases |ls|
  {
    if |ls| == 0 then Registration(m, [])
    else
      var first := Consider(m, kind, s, ls[0], rt);
      var rest := Register(first.handlers, kind, s, ls[1..], rt);
      Registration(rest.handlers, first.logged + rest.logged)
  }

  /** `addHandlers` keeps the map invariant when the subscriber is a
      member. */
  lemma {:induction false} RegisterWellFormed(m: HandlerMap, kind: HandlerKind, s: Subscriber, ls: seq<Listener>, rt: Runtime, subscribers: set<Subscriber>)
    requires s in subscribers
    requires WellFormedMap(m, subscribers)
    ensures WellFormedMap(Register(m, kind, s, ls, rt).handlers, subscribers)
    decreases |ls|
  {
    if |ls| > 0 {
      RegisterOneWellFormed(m, kind, s, ls[0], rt);
      RegisterWellFormed(Consider(m, kind, s, ls[0], rt).handlers, kind, s, ls[1..], rt, subscribers);
    }
  }

  lemma {:induction false} RegisterOneWellFormed(m: HandlerMap, kind: HandlerKind, s: Subscriber, l: Listener, rt: Runtime)
    ensures l.Matches(s) ==> forall subscribers :: s in subscribers && WellFormedMap(m, subscribers) ==>
      WellFormedMap(RegisterOne(m, kind, s, l, rt).handlers, subscribers)
  {
    if l.Matches(s) && l.WellFormed() {
      forall subscribers | s in subscribers && WellFormedMap(m, subscribers)
        ensures WellFormedMap(RegisterOne(m, kind, s, l, rt).handlers, subscribers)
      {
        AddKeepsWellFormed(m, subscribers, CreateHandler(kind, l, s, rt).handler);
      }
    }
  }

  lemma {:induction false} AddKeepsWellFormed(m: HandlerMap, subscribers: set<Subscriber>, h: Handler)
    requires WellFormedMap(m, subscribers)
    requires Registered(h, h.listener.paramType, subscribers)
    ensures WellFormedMap(m[h.listener.paramType := AddSorted(Lookup(m, h.listener.paramType), h)], subscribers)
  {
    var k := h.listener.paramType;
    var hs := Lookup(m, k);
    var hs' := AddSorted(hs, h);
    assert forall x :: x in hs ==> Registered(x, k, subscribers);
    forall x | x in hs' ensures Registered(x, k, subscribers) {
      assert x in multiset(hs');
      assert x in hs || x == h;
    }
  }

  // ----- what one `addHandlers` run registers and logs -----

  /** The annotated methods of the right static-ness with the wrong shape. */
  function MalformedOf(ls: seq<Listener>, s: Subscriber): seq<Listener>
  {
    if |ls| == 0 then []
    else (if ls[0].Matches(s) && !ls[0].WellFormed() then [ls[0]] else []) + MalformedOf(ls[1..], s)
  }

  /** The annotated methods of the right static-ness and shape whose handler
      of the configured kind cannot be built. */
  function FallbackOf(ls: seq<Listener>, kind: HandlerKind, s: Subscriber, rt: Runtime): seq<Listener>
  {
    if |ls| == 0 then []
    else
      (if ls[0].Matches(s) && ls[0].WellFormed() && rt.Fails(kind, ls[0], s) then [ls[0]] else [])
      + FallbackOf(ls[1..], kind, s, rt)
  }

  /** The reflective kind never falls back. */
  lemma {:induction false} FallbackOfReflect(ls: seq<Listener>, s: Subscriber, rt: Runtime)
    ensures FallbackOf(ls, ReflectKind, s, rt) == []
    decreases |ls|
  {
    if |ls| > 0 {
      FallbackOfReflect(ls[1..], s, rt);
    }
  }

  /** The listeners named by "incorrect return type or parameters" errors. */
  function MalformedLogged(log: seq<LogEntry>): seq<Listener>
  {
    if |log| == 0 then []
    else (if log[0].Malformed? then [log[0].listener] else []) + MalformedLogged(log[1..])
  }

  /** The listeners named by "Defaulting to ReflectHandler" errors. */
  function DefaultedLogged(log: seq<LogEntry>): seq<Listener>
  {
    if |log| == 0 then []
    else (if log[0].Defaulted? then [log[0].listener] else []) + DefaultedLogged(log[1..])
  }

  lemma {:induction false} LoggedConcat(a: seq<LogEntry>, b: seq<LogEntry>)
    ensures MalformedLogged(a + b) == MalformedLogged(a) + MalformedLogged(b)
    ensures DefaultedLogged(a + b) == DefaultedLogged(a) + DefaultedLogged(b)
  {
    MalformedConcat(a, b);
    DefaultedConcat(a, b);
  }

  lemma {:induction false} MalformedConcat(a: seq<LogEntry>, b: seq<LogEntry>)
    ensures MalformedLogged(a + b) == MalformedLogged(a) + MalformedLogged(b)
    decreases |a|
  {
    if |a| == 0 {
      assert a + b == b;
    } else {
      ConcatHead(a, b);
      MalformedConcat(a[1..], b);
      ConcatAssoc(if a[0].Malformed? then [a[0].listener] else [], MalformedLogged(a[1..]), MalformedLogged(b));
    }
  }

  lemma {:induction false} DefaultedConcat(a: seq<LogEntry>, b: seq<LogEntry>)
    ensures DefaultedLogged(a + b) == DefaultedLogged(a) + DefaultedLogged(b)
    decreases |a|
  {
    if |a| == 0 {
      assert a + b == b;
    } else {
      ConcatHead(a, b);
      DefaultedConcat(a[1..], b);
      ConcatAssoc(if a[0].Defaulted? then [a[0].listener] else [], DefaultedLogged(a[1..]), DefaultedLogged(b));
    }
  }

  lemma {:induction false} ConsiderLogs(m: HandlerMap, kind: HandlerKind, s: Subscriber, l: Listener, rt: Runtime)
    ensures MalformedLogged(Consider(m, kind, s, l, rt).logged) ==
      (if l.Matches(s) && !l.WellFormed() then [l] else [])
    ensures DefaultedLogged(Consider(m, kind, s, l, rt).logged) ==
      (if l.Matches(s) && l.WellFormed() && rt.Fails(kind, l, s) then [l] else [])
  {
    var log := Consider(m, kind, s, l, rt).logged;
    if l.Matches(s) && l.WellFormed() && rt.Fails(kind, l, s) {
      assert log == [BindFailed(kind, l), Defaulted(l)];
      assert log[1..] == [Defaulted(l)];
      assert log[1..][1..] == [];
      assert DefaultedLogged(log[1..]) == [l];
      assert MalformedLogged(log[1..]) == [];
    } else if l.Matches(s) && !l.WellFormed() {
      assert log == [Malformed(l)];
    } else {
      assert log == [];
    }
  }

  /** Every malformed listener of the right static-ness is reported exactly
      once, in discovery order, and no other listener is reported as
      malformed; every listener whose configured handler could not be built
      is reported once as falling back. */
  lemma {:induction false} RegisterLogs(m: HandlerMap, kind: HandlerKind, s: Subscriber, ls: seq<Listener>, rt: Runtime)
    ensures MalformedLogged(Register(m, kind, s, ls, rt).logged) == MalformedOf(ls, s)
    ensures DefaultedLogged(Register(m, kind, s, ls, rt).logged) == FallbackOf(ls, kind, s, rt)
    decreases |ls|
  {
    if |ls| > 0 {
      var first := Consider(m, kind, s, ls[0], rt);
      var rest := Register(first.handlers, kind, s, ls[1..], rt);
      assert Register(m, kind, s, ls, rt).logged == first.logged + rest.logged;
      RegisterLogs(first.handlers, kind, s, ls[1..], rt);
      LoggedConcat(first.logged, rest.logged);
      ConsiderLogs(m, kind, s, ls[0], rt);
    }
  }

  /** `h` is the handler `addHandlers` builds for one of the listeners `ls`
      of `s`, registered under `k`. */
  predicate Adds(kind: HandlerKind, s: Subscriber, ls: seq<Listener>, rt: Runtime, k: EventType, h: Handler) {
    && h.listener in ls
    && h.listener.Matches(s)
    && h.listener.WellFormed()
    && h.listener.paramType == k
    && h == CreateHandler(kind, h.listener, s, rt).handler
  }

  /** The list of `k` after one element of the stream. */
  lemma {:induction false} ConsiderLookup(m: HandlerMap, kind: HandlerKind, s: Subscriber, l: Listener, rt: Runtime, k: EventType)
    ensures Lookup(Consider(m, kind, s, l, rt).handlers, k) ==
      if l.Matches(s) && l.WellFormed() && l.paramType == k
      then AddSorted(Lookup(m, k), CreateHandler(kind, l, s, rt).handler)
      else Lookup(m, k)
  {
  }

  lemma {:induction false} ConsiderContents(m: HandlerMap, kind: HandlerKind, s: Subscriber, l: Listener, rt: Runtime, k: EventType, h: Handler)
    ensures h in Lookup(Consider(m, kind, s, l, rt).handlers, k) <==>
      h in Lookup(m, k) || (l.Matches(s) && l.WellFormed() && l.paramType == k && h == CreateHandler(kind, l, s, rt).handler)
  {
    ConsiderLookup(m, kind, s, l, rt, k);
    AddSortedMembers(Lookup(m, k), CreateHandler(kind, l, s, rt).handler, h);
  }

  lemma {:induction false} AddsCons(kind: HandlerKind, s: Subscriber, ls: seq<Listener>, rt: Runtime, k: EventType, h: Handler)
    requires |ls| > 0
    ensures Adds(kind, s, ls, rt, k, h) <==>
      || (ls[0].Matches(s) && ls[0].WellFormed() && ls[0].paramType == k && h == CreateHandler(kind, ls[0], s, rt).handler)
      || Adds(kind, s, ls[1..], rt, k, h)
  {
    assert ls == [ls[0]] + ls[1..];
  }

  /** After `addHandlers`, a list holds exactly what it held before plus the
      handlers built for the subscriber's accepted listeners of that type. */
  lemma {:induction false} RegisterContents(m: HandlerMap, kind: HandlerKind, s: Subscriber, ls: seq<Listener>, rt: Runtime, k: EventType, h: Handler)
    ensures h in Lookup(Register(m, kind, s, ls, rt).handlers, k) <==> h in Lookup(m, k) || Adds(kind, s, ls, rt, k, h)
    decreases |ls|
  {
    if |ls| > 0 {
      var first := Consider(m, kind, s, ls[0], rt);
      assert Register(m, kind, s, ls, rt).handlers == Register(first.handlers, kind, s, ls[1..], rt).handlers;
      RegisterContents(first.handlers, kind, s, ls[1..], rt, k, h);
      ConsiderContents(m, kind, s, ls[0], rt, k, h);
      AddsCons(kind, s, ls, rt, k, h);
    }
  }

  lemma {:induction false} ConsiderWithout(m: HandlerMap, kind: HandlerKind, s: Subscriber, l: Listener, rt: Runtime)
    requires AllSorted(m)
    ensures var first := Consider(m, kind, s, l, rt);
      forall k :: k in first.handlers ==> Without(first.handlers[k], s) == Without(Lookup(m, k), s)
  {
    if l.Matches(s) && l.WellFormed() {
      var c := CreateHandler(kind, l, s, rt);
      WithoutAddSorted(Lookup(m, l.paramType), c.handler, s);
    }
  }

  /** Removing the subscriber's handlers from the lists `addHandlers` left
      behind gives back the lists it started from, with the subscriber's
      handlers removed there too. */
  lemma {:induction false} RegisterWithout(m: HandlerMap, kind: HandlerKind, s: Subscriber, ls: seq<Listener>, rt: Runtime)
    requires AllSorted(m)
    ensures var r := Register(m, kind, s, ls, rt);
      forall k :: k in r.handlers ==> Without(r.handlers[k], s) == Without(Lookup(m, k), s)
    decreases |ls|
  {
    if |ls| > 0 {
      var first := Consider(m, kind, s, ls[0], rt);
      var r := Register(m, kind, s, ls, rt);
      assert r.handlers == Register(first.handlers, kind, s, ls[1..], rt).handlers;
      RegisterWithout(first.handlers, kind, s, ls[1..], rt);
      ConsiderWithout(m, kind, s, ls[0], rt);
      forall k | k in r.handlers ensures Without(r.handlers[k], s) == Without(Lookup(m, k), s) {
        assert Without(r.handlers[k], s) == Without(Lookup(first.handlers, k), s);
        if k !in first.handlers {
          assert k !in m;
        }
      }
    }
  }
}

=== FILE: scenario.dfy ===
/**
 A concrete run: two objects each declare one listener for the same event
 class, with priorities 10 and 5; posting that event invokes the priority-5
 listener first and reports the event as not cancelled when neither listener
 cancels it.
 */
module Scenario {
  import opened Model
  import opened HandlerList
  import opened Registry
  import opened Dispatching
  import opened Bus

  const Foo: EventType := 7
  const A: Subscriber := Instance(1)
  const B: Subscriber := Instance(2)
  const OnFooA: Listener := Listener(1, false, true, 1, Foo, true, 10, false)
  const OnFooB: Listener := Listener(2, false, true, 1, Foo, true, 5, false)

  /** Reflection reports `OnFooA` on `A` and `OnFooB` on `B`, and every
      handler kind can be built. */
  function ScenarioRuntime(): Runtime {
    Runtime(
      s => if s == A then [OnFooA] else if s == B then [OnFooB] else [],
      (k, l, s) => false)
  }

  const HA: Handler := Handler(OnFooA, A, LambdaKind)
  const HB: Handler := Handler(OnFooB, B, LambdaKind)

  /** Adding `HA` to the empty list gives `[HA]`. */
  lemma {:induction false} AddFirst()
    ensures AddSorted([], HA) == [HA]
  {
    assert [] + [HA] == [HA];
    assert [HA][..0] == [];
    assert StableSort([HA]) == Insert(StableSort([]), HA);
  }

  /** Adding `HB` to `[HA]` sorts it in front, its priority being lower. */
  lemma {:induction false} AddSecond()
    ensures AddSorted([HA], HB) == [HB, HA]
  {
    AddFirst();
    assert [HA] + [HB] == [HA, HB];
    assert [HA, HB][..1] == [HA];
    assert [HA][..0] == [];
    assert StableSort([HA]) == [HA];
    assert StableSort([HA, HB]) == Insert([HA], HB);
  }

  /** The one listener of `A` is well-formed and builds `HA`. */
  lemma {:induction false} RegisterFirst()
    ensures RegisterOne(map[], LambdaKind, A, OnFooA, ScenarioRuntime()).handlers == map[Foo := [HA]]
  {
    var rt := ScenarioRuntime();
    assert !rt.Fails(LambdaKind, OnFooA, A);
    assert CreateHandler(LambdaKind, OnFooA, A, rt).handler == HA;
    AddFirst();
  }

  /** Subscribing `A` to an empty bus creates the entry `Foo -> [HA]`. */
  lemma {:induction false} SubscribeFirst()
    ensures Subscribe(NewBus(LambdaKind), Some(A), ScenarioRuntime()).handlers == map[Foo := [HA]]
  {
    var rt := ScenarioRuntime();
    assert rt.listeners(A) == [OnFooA];
    var one := RegisterOne(map[], LambdaKind, A, OnFooA, rt);
    RegisterFirst();
    assert Consider(map[], LambdaKind, A, OnFooA, rt) == one;
    assert [OnFooA][1..] == [];
    assert Register(one.handlers, LambdaKind, A, [], rt).handlers == one.handlers;
    assert Register(map[], LambdaKind, A, [OnFooA], rt).handlers == one.handlers;
  }

  /** The one listener of `B` is well-formed and builds `HB`, which sorts
      in front of `HA`. */
  lemma {:induction false} RegisterSecond()
    ensures RegisterOne(map[Foo := [HA]], LambdaKind, B, OnFooB, ScenarioRuntime()).handlers == map[Foo := [HB, HA]]
  {
    var rt := ScenarioRuntime();
    assert !rt.Fails(LambdaKind, OnFooB, B);
    assert CreateHandler(LambdaKind, OnFooB, B, rt).handler == HB;
    assert Lookup(map[Foo := [HA]], Foo) == [HA];
    AddSecond();
  }

  /** Subscribing `B` next sorts its priority-5 handler before `HA`. */
  lemma {:induction false} SubscribeSecond(b: EventBus)
    requires b.subscribers == {A} && b.handlers == map[Foo := [HA]] && b.handlerType == LambdaKind
    ensures Subscribe(b, Some(B), ScenarioRuntime()).handlers == map[Foo := [HB, HA]]
  {
    var rt := ScenarioRuntime();
    var m := map[Foo := [HA]];
    assert rt.listeners(B) == [OnFooB];
    var one := RegisterOne(m, LambdaKind, B, OnFooB, rt);
    RegisterSecond();
    assert Consider(m, LambdaKind, B, OnFooB, rt) == one;
    assert [OnFooB][1..] == [];
    assert Register(one.handlers, LambdaKind, B, [], rt).handlers == one.handlers;
    assert Register(m, LambdaKind, B, [OnFooB], rt).handlers == one.handlers;
  }

  /** One pass over `[HB, HA]` where nobody cancels runs both. */
  lemma {:induction false} PostBoth(body: (Handler, Event) -> bool)
    requires forall h, e :: !body(h, e)
    ensures Dispatch([HB, HA], Event(Foo, false), body) == Trace([true, true], false)
  {
    var e := Event(Foo, false);
    assert Step(HB, e, body) == e && Step(HA, e, body) == e;
    assert [HB, HA][1..] == [HA];
    assert [HA][1..] == [];
    assert Dispatch([HA], e, body) == Trace([true], false);
  }

  /** Posting `Foo` to a bus whose `Foo` list is `[HB, HA]`. */
  lemma {:induction false} PostScenario(b: EventBus, body: (Handler, Event) -> bool)
    requires b.handlers == map[Foo := [HB, HA]]
    requires forall h, e :: !body(h, e)
    ensures Post(b, Some(Event(Foo, false)), body) == Delivery([HB, HA], false)
  {
    PostBoth(body);
    assert [true, true][1..] == [true];
    assert [HB, HA][1..] == [HA];
    assert [HA][1..] == [];
    assert Invoked([HB, HA], [true, true]) == [HB, HA];
  }

  /** `A` with priority 10 and `B` with priority 5 listen for `Foo`; when
      neither cancels, posting `Foo` invokes `B`'s handler, then `A`'s, and
      returns `false`. */
  lemma {:induction false} LowerPriorityRunsFirst(body: (Handler, Event) -> bool)
    requires forall h, e :: !body(h, e)
    ensures
      var rt := ScenarioRuntime();
      var bus := Subscribe(Subscribe(NewBus(LambdaKind), Some(A), rt), Some(B), rt);
      Post(bus, Some(Event(Foo, false)), body) == Delivery([HB, HA], false)
  {
    var rt := ScenarioRuntime();
    var b1 := Subscribe(NewBus(LambdaKind), Some(A), rt);
    SubscribeFirst();
    SubscribeSecond(b1);
    PostScenario(Subscribe(b1, Some(B), rt), body);
  }
}

=== FILE: sequences.dfy ===
/**
 Small facts about sequence concatenation, stated once so the proofs about
 handler lists, dispatch traces and error logs can cite them instead of
 rediscovering them.
 */
module Sequences {

  lemma {:induction false} ConcatHead<T>(a: seq<T>, b: seq<T>)
    requires |a| > 0
    ensures (a + b)[0] == a[0] && (a + b)[1..] == a[1..] + b
  {
  }

  lemma {:induction false} ConcatAssoc<T>(x: seq<T>, y: seq<T>, z: seq<T>)
    ensures x + (y + z) == (x + y) + z
  {
  }
}
